=== FILE: README.md ===
# Memory-pool lifecycle, modelled in Dafny

This project models the part of the `mem_pool.c` memory-pool allocator that
the repository actually implements. That part is the lifecycle of the
process-wide pool store and of the individual pools:

- `mem_init` creates the pool store, an array of 20 pool-manager pointers.
- `mem_free` destroys the store, but only when no counted slot still names
  a pool.
- `mem_pool_open` obtains four blocks in order: the manager record, the
  pool's byte buffer, a 40-slot node heap and a 40-entry gap index. It lays
  out one free segment that spans the whole buffer. Then it appends the
  manager to the store.
- `mem_pool_close` refuses a NULL handle, and it refuses a pool that does
  not have exactly one gap and zero allocations. Otherwise it frees the
  four blocks, clears the first store slot that names the pool, and leaves
  the store's size counter alone.
- `mem_new_alloc` and `mem_del_alloc` are stubs. They return NULL and
  `ALLOC_FAIL` and touch nothing.

The model is a functional state machine. A `State` pairs the store with the
map of live manager records, keyed by address. A NULL store is `None`. Each
operation is a pure function from a state to its status and the next state.
The source calls `malloc` and `calloc`; the model replaces those calls with
an input, `Grants`, which holds the allocator's four answers to an open. A
trace of `Acquire`/`Release` events records which blocks are obtained and
freed, and in what order.

Modules:

- `Resources` (resources.dfy) covers in-order acquisition, release in reverse order after a refusal, and the set of blocks held after a trace.
- `PoolMgr` (pool_mgr.dfy) defines the manager record, the node heap and gap index, and the state open leaves a pool in.
- `PoolStore` (pool_store.dfy) defines the store and the user-facing operations.
- `Lifecycle` (lifecycle.dfy) holds the invariant kept by every reachable state, runs of API calls, and round trips.
- `Status` and `Wrappers` define the status codes, the policies and `Option`.

Three facts about the code shape the model:

- `mem_pool_close` refuses a pool unless `num_gaps` is exactly 1 (mem_pool.c:232). The comment just above that check doubts it is the right test (mem_pool.c:231). `PoolMgr.Releasable` uses the check as written.
- `mem_pool_open` never grows the store. The expansion is a TODO (mem_pool.c:147), and `_mem_resize_pool_store` returns `ALLOC_FAIL` without ever being called (mem_pool.c:366-375). `Capacity` stays 20. `Lifecycle.OpensUntilStoreFull` shows that any twenty successful opens fill the store, after which a further open would write past its end.
- `mem_pool_open` returns NULL when called before `mem_init` (mem_pool.c:143-145). `mem_init` returns `ALLOC_CALLED_AGAIN` when the store already exists (mem_pool.c:107-108), and `mem_free` returns it when the store is already NULL (mem_pool.c:124-125). The model returns the same results.

## Model

| member | source | states |
|---|---|---|
| PoolStore.Init | mem_pool.c:103-117 | If the store already exists: `ALLOC_CALLED_AGAIN`, nothing changed. Otherwise: `ALLOC_OK`, a store with size 0, capacity 20 and every slot NULL; the live pools are untouched. |
| PoolStore.Free | mem_pool.c:119-139 | NULL store: `ALLOC_CALLED_AGAIN`, nothing changed. A counted slot naming a pool: `ALLOC_NOT_FREED`, nothing changed. Otherwise: `ALLOC_OK`, the store becomes NULL, size and capacity read 0. |
| Lifecycle.FreeRefusedIffPoolsOpen | mem_pool.c:119-139 | In a state keeping the invariant, teardown is refused exactly when some pool is still open, and succeeds exactly when none is. |
| Lifecycle.InitFreeRoundTrip | mem_pool.c:103-139 | From any state whose store is NULL, init succeeds, a second init is refused, and free after the first init succeeds and returns exactly to the starting state. |
| Resources.FirstDenied | mem_pool.c:151-181 | The index of the first refused request: every request before it was granted, and the request at it was refused. |
| Resources.AcquireInOrder | mem_pool.c:151-181 | When everything is granted, the trace acquires the resources in the order requested. After the k-th request is refused, the trace acquires the first k resources and then releases them in mirror order: the most recent first, the first one last. |
| Resources.AcquireInOrderHeld | mem_pool.c:151-181 | Replaying that trace ends with all requested resources added to those held, or, after a refusal, with exactly the resources held before. A failed open leaks nothing. |
| PoolMgr.NewMgr | mem_pool.c:183-210 | A new pool has the requested total size and policy, zero allocated bytes, zero allocations and one gap. Its node heap has capacity 40 with one used node; node 0 is used, not allocated, starts at the buffer's first byte, spans the whole buffer and has no neighbours, and every other node is zeroed. Its gap index has capacity 40; entry 0 is (size, node 0) and the rest are zeroed. |
| PoolMgr.PristineIsReleasable | mem_pool.c:184-239 | A pool in the state open leaves it in passes close's checks. It has one gap, no allocations, no allocated bytes and one used node. |
| PoolStore.Open | mem_pool.c:141-219 | NULL store: NULL handle, nothing changed, nothing acquired. A refused request: NULL handle, the state unchanged, and the trace is that of the in-order acquisition. Success: the handle is the manager's address. The manager is added to the live pools in its initial state and stored at index `size`. `size` grows by exactly 1, the capacity is unchanged, every other slot is unchanged, and the four blocks are acquired in the source's order. |
| Lifecycle.OpenFailureReleasesInReverse | mem_pool.c:141-181 | A failed open stops at its first refused request. It has acquired the blocks before that request in order, releases them most recent first, and holds nothing at the end. |
| PoolStore.FindSlot | mem_pool.c:250-256 | The search returns the first counted slot holding the pool, or reports that no counted slot holds it. |
| PoolStore.ClearFirst | mem_pool.c:250-256 | Exactly the first counted slot that names the pool becomes NULL. Every other slot, the size and the capacity are unchanged. |
| PoolStore.Close | mem_pool.c:221-263 | A NULL handle, a pool without exactly one gap, or a pool with allocations: `ALLOC_NOT_FREED`, nothing changed, nothing freed. Otherwise: `ALLOC_OK`; the buffer, node heap, gap index and manager are released in that order; the pool leaves the live set; the first slot naming it becomes NULL; the size, the capacity and every other slot are unchanged. |
| Lifecycle.ClearFirstLiveIds | mem_pool.c:250-258 | When the store names each pool at most once, clearing the first slot naming a pool removes that pool, and only that pool, from the pools the store names. |
| Lifecycle.InitPreservesInv | mem_pool.c:103-117 | Init keeps the lifecycle invariant. |
| Lifecycle.FreePreservesInv | mem_pool.c:119-139 | Free keeps the lifecycle invariant. |
| Lifecycle.OpenPreservesInv | mem_pool.c:141-219 | Open keeps the invariant: the store names each live pool in exactly one counted slot and names nothing else, slots past the size are NULL, and every live pool is in its initial state. A returned handle names a live pool. |
| Lifecycle.ClosePreservesInv | mem_pool.c:221-263 | Close keeps the invariant. After a successful close, no counted slot names the pool any more. |
| Lifecycle.LivePoolCloses | mem_pool.c:221-262 | In a state keeping the invariant, closing any live pool succeeds and removes the pool. |
| Lifecycle.StubsChangeNothing | mem_pool.c:265-342 | Any run of `mem_new_alloc` and `mem_del_alloc` calls leaves the state exactly as it was. |
| Lifecycle.RunPreservesInv | mem_pool.c:103-342 | Every run of API calls from a state keeping the invariant ends in a state keeping it. |
| Lifecycle.ReachablePoolsClose | mem_pool.c:221-342 | In every state reachable from process start, each live pool can be closed. This holds whatever allocation calls were made in between, and the close removes the pool. |
| Lifecycle.OpenCloseRoundTrip | mem_pool.c:214-262 | Opening a pool and then closing it restores the state exactly, except for the store's size counter, which stays one higher. |
| Lifecycle.OpenCloseFreesAll | mem_pool.c:151-260 | A successful open obtains each of its four blocks exactly once and frees none. The close that follows frees exactly those blocks, each exactly once (equal multisets), and obtains none. Nothing stays held. |
| Lifecycle.OpensFillStore | mem_pool.c:141-219 | Any sequence of fully granted opens, with any sizes and policies and with fresh, distinct manager addresses, into a store with room: the k-th open's manager goes into slot `size + k`, in its initial state for that open's size and policy. The size grows by the number of opens and the capacity is unchanged. Slots before the old size and past the new size are unchanged. Managers already live are unchanged, and no other manager appears. |
| Lifecycle.OpensUntilStoreFull | mem_pool.c:141-219 | After `mem_init` and up to 20 fully granted opens, of any sizes and policies, at distinct manager addresses: the size is the number of opens and the capacity is 20. Slot k holds the k-th manager, in its initial state for that open's size and policy, and the live managers are exactly those opened. A further fully granted open at a fresh address is outside the model (`Step` returns None) exactly when twenty opens have been made. The source would then write that manager past the 20-slot store, raise the size to 21 and return a non-NULL handle. |
| PoolStore.NewAlloc | mem_pool.c:265-290 | The stub returns NULL and changes nothing. |
| PoolStore.DelAlloc | mem_pool.c:292-342 | The stub returns `ALLOC_FAIL` and changes nothing. |

## Left out

- The allocation engine is left out. This covers first-fit and best-fit selection, splitting and coalescing, and gap-index insert, remove, sort and invalidate. The source has only comments over stubs that return NULL or `ALLOC_FAIL` (mem_pool.c:265-342, 389-429). The model covers the stubs' observable behaviour, which is no effect.
- Node-heap, gap-index and store growth (`_mem_resize_*`) are left out. They are stubs returning `ALLOC_FAIL` and are never called.
- `mem_inspect_pool` is left out. Its body is empty and it writes no outputs (mem_pool.c:344-357).
- Real memory is abstract. The byte buffer, its contents and the `pool_pt`/`pool_mgr_pt` casts are not modelled. Addresses are abstract numbers, and node addresses are offsets into the buffer.
- The outcomes of `malloc`, `calloc` and `free` are inputs, not modelled memory. The model takes it that `malloc` never returns an address that is still live.
- The `calloc` in `mem_init` is assumed to succeed. The source never checks its result (mem_pool.c:111); if it failed, init would return `ALLOC_OK` with the store still NULL.
- The fill-factor and expand-factor constants are left out. No implemented code reads them (mem_pool.c:16-29).
- Integer widths are unbounded. `size_t` and `unsigned` become natural numbers. The store's size counter never exceeds 20, so 32-bit wrap-around cannot occur.
- The allocation policy is stored and never consulted, because nothing in the implemented code reads it.
- PoolStore.Open: requires room in the store whenever all four requests are granted. The source writes `pool_store[pool_store_size]` without a bound check (mem_pool.c:214). A 21st open would write past the 20-slot array, which is undefined behaviour, so the model does not describe it.
- PoolStore.Close: requires a non-NULL handle to name a live pool. The source dereferences the handle without a check, so closing a dangling handle is undefined behaviour and is not modelled.
- Lifecycle.Run stops (returns None) at three kinds of call. Two are undefined behaviour in the source: an open that would write past the store, and a close of a handle that names no live pool. The third is an open whose allocator answers name an address that is still live. That open is excluded by the assumption that `malloc` never returns a live address; it is not undefined behaviour.

=== FILE: lifecycle.dfy ===
/**
  Whole-process properties of the pool lifecycle: the invariant every
  reachable state keeps, runs of API calls, and the round trips the
  operations complete.
*/
module Lifecycle {
  import opened Wrappers
  import opened Status
  import opened Resources
  import opened PoolMgr
  import opened PoolStore

  /**
    What holds between API calls: a NULL store means no live pool; an
    existing store keeps its initial capacity, has nothing past its size,
    names each live pool in exactly one counted slot and names nothing else;
    and since no allocation is ever made, every live pool is as open left it.
  */
  ghost predicate Inv(st: State) {
    && (forall id :: id in st.pools ==> Pristine(st.pools[id]))
    && match st.store
       case None => st.pools == map[]
       case Some(s) =>
         && |s.slots| == PoolStoreInitCapacity
         && (forall i :: s.size <= i < |s.slots| ==> s.slots[i].None?)
         && (forall i, j :: 0 <= i < j < s.size && s.slots[i].Some? ==> s.slots[i] != s.slots[j])
         && LiveIds(s) == st.pools.Keys
  }

  lemma InitialInv()
    ensures Inv(Initial)
  {
  }

  lemma InitPreservesInv(st: State)
    requires Inv(st)
    ensures Inv(Init(st).state)
  {
    if st.store.None? {
      var s := Init(st).state.store.value;
      assert LiveIds(s) == {};
    }
  }

  /** Under the invariant, teardown is refused exactly when a pool is still open. */
  lemma FreeRefusedIffPoolsOpen(st: State)
    requires Inv(st) && st.store.Some?
    ensures Free(st).status == AllocNotFreed <==> st.pools != map[]
    ensures Free(st).status == AllocOk <==> st.pools == map[]
  {
    if st.pools != map[] {
      var id :| id in st.pools;
      assert id in LiveIds(st.store.value);
    }
  }

  lemma FreePreservesInv(st: State)
    requires Inv(st)
    ensures Inv(Free(st).state)
  {
    if st.store.Some? {
      FreeRefusedIffPoolsOpen(st);
    }
  }

  /** Open keeps the invariant, and a pool it returns is live afterwards. */
  lemma OpenPreservesInv(st: State, size: nat, policy: Policy, grants: Grants)
    requires Inv(st)
    requires grants.mgr.Some? ==> grants.mgr.value !in st.pools
    requires st.store.Some? && AllGranted(grants.AsSeq()) ==> Size(st) < Capacity(st)
    ensures Inv(Open(st, size, policy, grants).state)
    ensures Open(st, size, policy, grants).handle.Some? ==>
      Open(st, size, policy, grants).handle.value in Open(st, size, policy, grants).state.pools
  {
    var r := Open(st, size, policy, grants);
    if st.store.Some? && AllGranted(grants.AsSeq()) {
      var s := st.store.value;
      var s' := r.state.store.value;
      var id := grants.mgr.value;
      assert id !in LiveIds(s);
      assert LiveIds(s') == LiveIds(s) + {id} by {
        forall x | x in LiveIds(s') ensures x in LiveIds(s) + {id} {
          var i :| 0 <= i < s'.size && s'.slots[i].Some? && s'.slots[i].value == x;
          if i < s.size { assert s.slots[i] == s'.slots[i]; }
        }
        forall x | x in LiveIds(s) ensures x in LiveIds(s') {
          var i :| 0 <= i < s.size && s.slots[i].Some? && s.slots[i].value == x;
          assert s'.slots[i] == s.slots[i];
        }
        assert s'.slots[s.size] == Some(id);
      }
      forall i, j | 0 <= i < j < s'.size && s'.slots[i].Some?
        ensures s'.slots[i] != s'.slots[j]
      {
        if j == s.size {
          assert s.slots[i].value in LiveIds(s);
        }
      }
      assert NewMgr(size, policy).pool.totalSize == size;
    }
  }

  /** Clearing the one slot that names `id` removes `id` and nothing else. */
  lemma ClearFirstLiveIds(s: Store, id: PoolId)
    requires forall i, j :: 0 <= i < j < s.size && s.slots[i].Some? ==> s.slots[i] != s.slots[j]
    ensures LiveIds(ClearFirst(s, id)) == LiveIds(s) - {id}
  {
    var s' := ClearFirst(s, id);
    forall x | x in LiveIds(s') ensures x in LiveIds(s) - {id} {
      var i :| 0 <= i < s'.size && s'.slots[i].Some? && s'.slots[i].value == x;
      assert s'.slots[i] == s.slots[i];
    }
    forall x | x in LiveIds(s) - {id} ensures x in LiveIds(s') {
      var i :| 0 <= i < s.size && s.slots[i].Some? && s.slots[i].value == x;
      assert s'.slots[i] == s.slots[i];
    }
  }

  /** Close keeps the invariant; after a successful close the store no longer names the pool. */
  lemma ClosePreservesInv(st: State, handle: Option<PoolId>)
    requires Inv(st)
    requires handle.Some? ==> handle.value in st.pools
    ensures Inv(Close(st, handle).state)
    ensures Close(st, handle).status == AllocOk && st.store.Some? ==>
      handle.value !in LiveIds(Close(st, handle).state.store.value)
  {
    var r := Close(st, handle);
    if r.status == AllocOk {
      var id := handle.value;
      if st.store.Some? {
        var s := st.store.value;
        ClearFirstLiveIds(s, id);
        assert r.state.store.value == ClearFirst(s, id);
      }
    }
  }

  /** Every pool that is live in a state keeping the invariant can be closed. */
  lemma LivePoolCloses(st: State, id: PoolId)
    requires Inv(st) && id in st.pools
    ensures Close(st, Some(id)).status == AllocOk
    ensures id !in Close(st, Some(id)).state.pools
  {
    PristineIsReleasable(st.pools[id]);
  }

  /** One call of the user-facing API, with the allocator's answers for an open. */
  datatype Op =
    | InitOp
    | FreeOp
    | OpenOp(size: nat, policy: Policy, grants: Grants)
    | CloseOp(handle: Option<PoolId>)
    | NewAllocOp(pool: Option<PoolId>, size: nat)
    | DelAllocOp(pool: Option<PoolId>, alloc: Option<nat>)

  /** False for the calls the model leaves out. Two are undefined behaviour in
      the source: an open that would write past the store and a close of a
      dangling handle. The third, an open whose allocator answer names a live
      block, is excluded by the assumption that `malloc` never returns one. */
  predicate Enabled(st: State, op: Op) {
    match op
    case OpenOp(_, _, g) =>
      && (g.mgr.Some? ==> g.mgr.value !in st.pools)
      && (st.store.Some? && AllGranted(g.AsSeq()) ==> Size(st) < Capacity(st))
    case CloseOp(h) => h.Some? ==> h.value in st.pools
    case _ => true
  }

  /** The state after `op`, or None if `op` is not enabled. */
  function Step(st: State, op: Op): Option<State> {
    if !Enabled(st, op) then None
    else
      match op
      case InitOp => Some(Init(st).state)
      case FreeOp => Some(Free(st).state)
      case OpenOp(size, policy, g) => Some(Open(st, size, policy, g).state)
      case CloseOp(h) => Some(Close(st, h).state)
      case NewAllocOp(h, size) => Some(NewAlloc(st, h, size).state)
      case DelAllocOp(h, a) => Some(DelAlloc(st, h, a).state)
  }

  /** The state after the calls `ops` in order, or None if one of them is not enabled. */
  function Run(st: State, ops: seq<Op>): Option<State>
    decreases |ops|
  {
    if |ops| == 0 then Some(st)
    else
      match Step(st, ops[0])
      case None => None
      case Some(st') => Run(st', ops[1..])
  }

  lemma StepPreservesInv(st: State, op: Op)
    requires Inv(st) && Step(st, op).Some?
    ensures Inv(Step(st, op).value)
  {
    match op
    case InitOp => InitPreservesInv(st);
    case FreeOp => FreePreservesInv(st);
    case OpenOp(size, policy, g) => OpenPreservesInv(st, size, policy, g);
    case CloseOp(h) => ClosePreservesInv(st, h);
    case NewAllocOp(_, _) =>
    case DelAllocOp(_, _) =>
  }

  lemma {:induction false} RunPreservesInv(st: State, ops: seq<Op>)
    requires Inv(st) && Run(st, ops).Some?
    ensures Inv(Run(st, ops).value)
    decreases |ops|
  {
    if |ops| > 0 {
      var st' := Step(st, ops[0]).value;
      StepPreservesInv(st, ops[0]);
      RunPreservesInv(st', ops[1..]);
    }
  }

  /** In every state reachable from process start, each live pool can be closed,
      and closing it removes it from the store. */
  lemma ReachablePoolsClose(ops: seq<Op>, id: PoolId)
    requires Run(Initial, ops).Some? && id in Run(Initial, ops).value.pools
    ensures Close(Run(Initial, ops).value, Some(id)).status == AllocOk
    ensures id !in Close(Run(Initial, ops).value, Some(id)).state.pools
  {
    InitialInv();
    RunPreservesInv(Initial, ops);
    LivePoolCloses(Run(Initial, ops).value, id);
  }

  predicate IsStub(op: Op) {
    op.NewAllocOp? || op.DelAllocOp?
  }

  /** Any run of allocation calls leaves the state exactly as it found it. */
  lemma {:induction false} StubsChangeNothing(st: State, ops: seq<Op>)
    requires forall i :: 0 <= i < |ops| ==> IsStub(ops[i])
    ensures Run(st, ops) == Some(st)
    decreases |ops|
  {
    if |ops| > 0 {
      assert IsStub(ops[0]);
      StubsChangeNothing(st, ops[1..]);
    }
  }

  /**
    A failed open stops at the first refused request, gives back the blocks
    it obtained before it, most recent first, and so leaks nothing.
  */
  lemma OpenFailureReleasesInReverse(st: State, size: nat, policy: Policy, grants: Grants)
    requires grants.mgr.Some? ==> grants.mgr.value !in st.pools
    requires st.store.Some? && AllGranted(grants.AsSeq()) ==> Size(st) < Capacity(st)
    requires Open(st, size, policy, grants).handle.None?
    ensures var t := Open(st, size, policy, grants).trace;
      && var k := if st.store.None? then 0 else FirstDenied(grants.AsSeq());
      && k < |OpenOrder|
      && (st.store.Some? ==> !grants.AsSeq()[k])
      && |t| == 2 * k
      && (forall i :: 0 <= i < k ==> t[i] == Acquire(OpenOrder[i]))
      && (forall i :: 0 <= i < k ==> t[2 * k - 1 - i] == Release(OpenOrder[i]))
      && HeldAfter({}, t) == {}
  {
    if st.store.Some? {
      AcquireInOrderHeld({}, OpenOrder, grants.AsSeq());
    }
  }

  /**
    Opening a pool and closing it again restores the state except for the
    store's size counter, which only grows.
  */
  lemma OpenCloseRoundTrip(st: State, size: nat, policy: Policy, grants: Grants)
    requires Inv(st) && st.store.Some?
    requires AllGranted(grants.AsSeq()) && grants.mgr.value !in st.pools
    requires Size(st) < Capacity(st)
    ensures var o := Open(st, size, policy, grants);
            var c := Close(o.state, o.handle);
            && c.status == AllocOk
            && c.state == State(Some(StoreArray(st.store.value.slots, Size(st) + 1)), st.pools)
  {
    var o := Open(st, size, policy, grants);
    var id := grants.mgr.value;
    var s := st.store.value;
    var s1 := o.state.store.value;
    assert o.handle == Some(id);
    assert o.state.pools[id] == NewMgr(size, policy);
    var c := Close(o.state, o.handle);
    assert FirstSlotOf(s1, id, s.size) by {
      forall j | 0 <= j < s.size ensures s1.slots[j] != Some(id) {
        assert s1.slots[j] == s.slots[j];
      }
    }
    var s2 := c.state.store.value;
    assert s2.slots == s.slots by {
      forall i | 0 <= i < |s.slots| ensures s2.slots[i] == s.slots[i] {
        if i != s.size {
          assert !FirstSlotOf(s1, id, i);
        }
      }
    }
    assert c.state.pools == st.pools;
  }

  /**
    A successful open followed by a successful close of the same pool: the
    close frees exactly the blocks the open obtained, each once, the open
    frees nothing and the close obtains nothing, so nothing stays held.
  */
  lemma OpenCloseFreesAll(st: State, size: nat, policy: Policy, grants: Grants)
    requires st.store.Some? && AllGranted(grants.AsSeq()) && grants.mgr.value !in st.pools
    requires Size(st) < Capacity(st)
    ensures var o := Open(st, size, policy, grants);
            var c := Close(o.state, o.handle);
            && Acquired(o.trace) == multiset{MgrRecord, PoolBuffer, NodeHeap, GapIndex}
            && Released(c.trace) == Acquired(o.trace)
            && Released(o.trace) == multiset{} && Acquired(c.trace) == multiset{}
            && HeldAfter({}, o.trace + c.trace) == {}
  {
    var o := Open(st, size, policy, grants);
    assert grants.AsSeq() == [true, true, true, true];
    var m := o.state.pools[grants.mgr.value];
    assert m == NewMgr(size, policy);
    assert Releasable(m);
    var c := Close(o.state, o.handle);
    assert c.trace == CloseTrace();
    OpenCloseTracesBalance();
  }

  /** Creating the store and tearing it down again, with no pool opened in
      between, returns to the state before. */
  lemma InitFreeRoundTrip(st: State)
    requires st.store.None?
    ensures Init(st).status == AllocOk
    ensures Init(Init(st).state).status == AllocCalledAgain
    ensures Free(Init(st).state) == Outcome(AllocOk, st)
  {
    assert LiveIds(Init(st).state.store.value) == {};
  }

  /** An open the allocator fully grants: the manager record at `id`, a pool
      of `size` bytes under `policy`. */
  datatype Request = Request(id: PoolId, size: nat, policy: Policy)

  function GrantedOpen(q: Request): Op {
    OpenOp(q.size, q.policy, Grants(Some(q.id), true, true, true))
  }

  /** The opens for `reqs`, in order. */
  function Opens(reqs: seq<Request>): (ops: seq<Op>)
    ensures |ops| == |reqs|
    decreases |reqs|
  {
    if |reqs| == 0 then [] else [GrantedOpen(reqs[0])] + Opens(reqs[1..])
  }

  /** The requests name distinct addresses, none of them a live manager. */
  predicate FreshIds(st: State, reqs: seq<Request>) {
    && (forall k :: 0 <= k < |reqs| ==> reqs[k].id !in st.pools)
    && (forall k, l :: 0 <= k < l < |reqs| ==> reqs[k].id != reqs[l].id)
  }

  /** One fully granted open, seen through `Step`. */
  lemma GrantedOpenStep(st: State, q: Request) returns (st': State)
    requires st.store.Some? && q.id !in st.pools && Size(st) < Capacity(st)
    ensures Step(st, GrantedOpen(q)) == Some(st')
    ensures st'.store.Some?
    ensures Size(st') == Size(st) + 1 && Capacity(st') == Capacity(st)
    ensures st'.store.value.slots == st.store.value.slots[Size(st) := Some(q.id)]
    ensures st'.pools == st.pools[q.id := NewMgr(q.size, q.policy)]
  {
    var g := Grants(Some(q.id), true, true, true);
    assert AllGranted(g.AsSeq());
    st' := Step(st, GrantedOpen(q)).value;
  }

  /** A fully granted open of a fresh address is outside the model (`Step`
      returns None) exactly when the store is full: the source would write
      past the store's end and still return a handle. */
  lemma GrantedOpenExcludedIffFull(st: State, q: Request)
    requires st.store.Some? && q.id !in st.pools
    ensures Step(st, GrantedOpen(q)).None? <==> Size(st) == Capacity(st)
  {
    assert AllGranted(Grants(Some(q.id), true, true, true).AsSeq());
  }

  /** A run goes on from wherever its first step leads. */
  lemma RunFirst(st: State, op: Op, rest: seq<Op>, st': State)
    requires Step(st, op) == Some(st')
    ensures Run(st, [op] + rest) == Run(st', rest)
  {
    assert ([op] + rest)[1..] == rest;
  }

  /**
    The bookkeeping step of `OpensFillStore`: what the first open did to
    `st`, followed by what the remaining opens did to the result, is what
    all of `reqs` did to `st`.
  */
  lemma OpensCompose(st: State, reqs: seq<Request>, st1: State, st': State)
    requires |reqs| > 0 && st.store.Some? && st1.store.Some? && st'.store.Some?
    requires FreshIds(st, reqs)
    requires Size(st1) == Size(st) + 1 && Capacity(st1) == Capacity(st)
    requires st1.store.value.slots == st.store.value.slots[Size(st) := Some(reqs[0].id)]
    requires st1.pools == st.pools[reqs[0].id := NewMgr(reqs[0].size, reqs[0].policy)]
    requires Size(st') == Size(st1) + |reqs[1..]| && Capacity(st') == Capacity(st1)
    requires forall i :: 0 <= i < Size(st1) ==> st'.store.value.slots[i] == st1.store.value.slots[i]
    requires forall i :: Size(st') <= i < Capacity(st1) ==> st'.store.value.slots[i] == st1.store.value.slots[i]
    requires forall k :: 0 <= k < |reqs[1..]| ==> st'.store.value.slots[Size(st1) + k] == Some(reqs[1..][k].id)
    requires forall id :: id in st1.pools ==> id in st'.pools && st'.pools[id] == st1.pools[id]
    requires forall k :: 0 <= k < |reqs[1..]| ==>
      reqs[1..][k].id in st'.pools && st'.pools[reqs[1..][k].id] == NewMgr(reqs[1..][k].size, reqs[1..][k].policy)
    requires forall id :: id in st'.pools ==>
      id in st1.pools || exists k :: 0 <= k < |reqs[1..]| && reqs[1..][k].id == id
    ensures Size(st') == Size(st) + |reqs| && Capacity(st') == Capacity(st)
    ensures forall i :: 0 <= i < Size(st) ==> st'.store.value.slots[i] == st.store.value.slots[i]
    ensures forall i :: Size(st') <= i < Capacity(st) ==> st'.store.value.slots[i] == st.store.value.slots[i]
    ensures forall k :: 0 <= k < |reqs| ==> st'.store.value.slots[Size(st) + k] == Some(reqs[k].id)
    ensures forall id :: id in st.pools ==> id in st'.pools && st'.pools[id] == st.pools[id]
    ensures forall k :: 0 <= k < |reqs| ==>
      reqs[k].id in st'.pools && st'.pools[reqs[k].id] == NewMgr(reqs[k].size, reqs[k].policy)
    ensures forall id :: id in st'.pools ==>
      id in st.pools || exists k :: 0 <= k < |reqs| && reqs[k].id == id
  {
    var rest := reqs[1..];
    forall k | 0 <= k < |reqs| ensures st'.store.value.slots[Size(st) + k] == Some(reqs[k].id) {
      if k > 0 { assert rest[k - 1] == reqs[k]; }
    }
    forall id | id in st.pools ensures id in st'.pools && st'.pools[id] == st.pools[id] {
      assert id != reqs[0].id;
    }
    forall k | 0 <= k < |reqs|
      ensures reqs[k].id in st'.pools && st'.pools[reqs[k].id] == NewMgr(reqs[k].size, reqs[k].policy)
    {
      if k > 0 { assert rest[k - 1] == reqs[k]; }
    }
    forall id | id in st'.pools ensures id in st.pools || exists k :: 0 <= k < |reqs| && reqs[k].id == id {
      if id !in st1.pools {
        var k :| 0 <= k < |rest| && rest[k].id == id;
        assert reqs[k + 1].id == id;
      }
    }
  }

  /** The requests after the first are still fresh once the first is open. */
  lemma FreshIdsRest(st: State, reqs: seq<Request>, st1: State)
    requires |reqs| > 0 && FreshIds(st, reqs)
    requires st1.pools.Keys == st.pools.Keys + {reqs[0].id}
    ensures FreshIds(st1, reqs[1..])
  {
    var rest := reqs[1..];
    forall k | 0 <= k < |rest| ensures rest[k].id !in st1.pools {
      assert rest[k] == reqs[k + 1];
    }
    forall k, l | 0 <= k < l < |rest| ensures rest[k].id != rest[l].id {
      assert rest[k] == reqs[k + 1] && rest[l] == reqs[l + 1];
    }
  }

  /**
    Fully granted opens into a store with room each take the next slot in
    turn: the k-th request's manager lands in slot `size + k` in its initial
    state. The earlier slots, the slots past the new size, the capacity and
    the managers already live are untouched, and no other manager appears.
  */
  lemma {:induction false} OpensFillStore(st: State, reqs: seq<Request>) returns (st': State)
    requires st.store.Some? && FreshIds(st, reqs)
    requires Size(st) + |reqs| <= Capacity(st)
    ensures Run(st, Opens(reqs)) == Some(st')
    ensures st'.store.Some?
    ensures Size(st') == Size(st) + |reqs| && Capacity(st') == Capacity(st)
    ensures forall i :: 0 <= i < Size(st) ==> st'.store.value.slots[i] == st.store.value.slots[i]
    ensures forall i :: Size(st') <= i < Capacity(st) ==> st'.store.value.slots[i] == st.store.value.slots[i]
    ensures forall k :: 0 <= k < |reqs| ==> st'.store.value.slots[Size(st) + k] == Some(reqs[k].id)
    ensures forall id :: id in st.pools ==> id in st'.pools && st'.pools[id] == st.pools[id]
    ensures forall k :: 0 <= k < |reqs| ==>
      reqs[k].id in st'.pools && st'.pools[reqs[k].id] == NewMgr(reqs[k].size, reqs[k].policy)
    ensures forall id :: id in st'.pools ==>
      id in st.pools || exists k :: 0 <= k < |reqs| && reqs[k].id == id
    decreases |reqs|
  {
    if |reqs| == 0 {
      st' := st;
    } else {
      var st1 := GrantedOpenStep(st, reqs[0]);
      RunFirst(st, GrantedOpen(reqs[0]), Opens(reqs[1..]), st1);
      FreshIdsRest(st, reqs, st1);
      st' := OpensFillStore(st1, reqs[1..]);
      OpensCompose(st, reqs, st1, st');
    }
  }

  /** mem_init from the program's initial state yields an empty store of twenty slots. */
  lemma InitStep() returns (st: State)
    ensures Step(Initial, InitOp) == Some(st)
    ensures st.store.Some? && Size(st) == 0 && Capacity(st) == PoolStoreInitCapacity
    ensures st.pools == map[]
  {
    st := Init(Initial).state;
  }

  /** The requests name pairwise distinct manager addresses. */
  predicate DistinctIds(reqs: seq<Request>) {
    forall k, l :: 0 <= k < l < |reqs| ==> reqs[k].id != reqs[l].id
  }

  /**
    The effect of opens into the empty store, restated from `OpensFillStore`
    for a store of size 0 with no live managers.
  */
  lemma OpensIntoEmpty(st0: State, st: State, reqs: seq<Request>)
    requires st0.store.Some? && st.store.Some? && Size(st0) == 0 && st0.pools == map[]
    requires Size(st) == Size(st0) + |reqs|
    requires forall k :: 0 <= k < |reqs| ==> st.store.value.slots[Size(st0) + k] == Some(reqs[k].id)
    requires forall k :: 0 <= k < |reqs| ==>
      reqs[k].id in st.pools && st.pools[reqs[k].id] == NewMgr(reqs[k].size, reqs[k].policy)
    requires forall id :: id in st.pools ==>
      id in st0.pools || exists k :: 0 <= k < |reqs| && reqs[k].id == id
    ensures forall k :: 0 <= k < |reqs| ==> st.store.value.slots[k] == Some(reqs[k].id)
    ensures forall id :: id in st.pools <==> exists k :: 0 <= k < |reqs| && reqs[k].id == id
  {
    forall k | 0 <= k < |reqs| ensures st.store.value.slots[k] == Some(reqs[k].id) {
      assert Size(st0) + k == k;
    }
  }

  /** After mem_init, fully granted opens at distinct addresses fill the first slots in order. */
  lemma {:induction false} OpensFromInit(reqs: seq<Request>) returns (st: State)
    requires |reqs| <= PoolStoreInitCapacity && DistinctIds(reqs)
    ensures Run(Initial, [InitOp] + Opens(reqs)) == Some(st)
    ensures st.store.Some? && Size(st) == |reqs| && Capacity(st) == PoolStoreInitCapacity
    ensures forall k :: 0 <= k < |reqs| ==> st.store.value.slots[k] == Some(reqs[k].id)
    ensures forall k :: 0 <= k < |reqs| ==>
      reqs[k].id in st.pools && st.pools[reqs[k].id] == NewMgr(reqs[k].size, reqs[k].policy)
    ensures forall id :: id in st.pools <==> exists k :: 0 <= k < |reqs| && reqs[k].id == id
  {
    var st0 := InitStep();
    RunFirst(Initial, InitOp, Opens(reqs), st0);
    st := OpensFillStore(st0, reqs);
    OpensIntoEmpty(st0, st, reqs);
  }

  /**
    The store never grows. After mem_init and any fully granted opens, of
    any sizes and policies, at distinct manager addresses, slot k holds the
    k-th manager in its initial state and the live managers are exactly
    those. A further fully granted open at a fresh address is outside the
    model (`Step` returns None) exactly when twenty opens have filled the
    store: the source would write that manager past the end of the store
    and still return a handle.
  */
  lemma {:induction false} OpensUntilStoreFull(reqs: seq<Request>, q: Request)
    requires |reqs| <= PoolStoreInitCapacity && DistinctIds(reqs)
    requires forall k :: 0 <= k < |reqs| ==> reqs[k].id != q.id
    ensures var ops := [InitOp] + Opens(reqs);
            && Run(Initial, ops).Some?
            && var st := Run(Initial, ops).value;
            && Size(st) == |reqs| && Capacity(st) == PoolStoreInitCapacity
            && (forall k :: 0 <= k < |reqs| ==> st.store.value.slots[k] == Some(reqs[k].id))
            && (forall k :: 0 <= k < |reqs| ==>
                  reqs[k].id in st.pools && st.pools[reqs[k].id] == NewMgr(reqs[k].size, reqs[k].policy))
            && (forall id :: id in st.pools <==> exists k :: 0 <= k < |reqs| && reqs[k].id == id)
            && (Step(st, GrantedOpen(q)).None? <==> |reqs| == PoolStoreInitCapacity)
  {
    var st := OpensFromInit(reqs);
    GrantedOpenExcludedIffFull(st, q);
  }
}

=== FILE: pool_mgr.dfy ===
/**
  One pool's manager record: the client-visible pool header, the node heap
  of segment records and the gap index, all as mem_pool_open lays them out.
  Addresses inside the pool's buffer are offsets from its first byte; slot
  references are indices into the node heap.
*/
module PoolMgr {
  import opened Wrappers
  import opened Status

  /** Slots in a freshly opened pool's node heap. */
  const NodeHeapInitCapacity: nat := 40
  /** Entries in a freshly opened pool's gap index. */
  const GapIxInitCapacity: nat := 40

  /** A segment record: `mem` is its start (None for a NULL pointer), `used`
      whether the slot is live, `isAllocated` whether a client holds it. */
  datatype Node = Node(mem: Option<nat>, size: nat, used: bool, isAllocated: bool,
                       next: Option<nat>, prev: Option<nat>)

  /** What `calloc` leaves in a node slot: every field zero or NULL. */
  const ZeroNode := Node(None, 0, false, false, None, None)

  /** A gap-index entry: the size of a free segment and the slot describing it. */
  datatype Gap = Gap(size: nat, node: Option<nat>)

  /** What `calloc` leaves in a gap-index entry. */
  const ZeroGap := Gap(0, None)

  /** The client-visible header of a pool. */
  datatype Pool = Pool(totalSize: nat, allocSize: nat, numAllocs: nat, numGaps: nat, policy: Policy)

  datatype Mgr = Mgr(pool: Pool, nodeHeap: seq<Node>, totalNodes: nat, usedNodes: nat,
                     gapIx: seq<Gap>, gapIxCapacity: nat)

  /** The manager of a pool of `size` bytes right after a successful open. */
  function NewMgr(size: nat, policy: Policy): (m: Mgr)
    ensures m.pool.totalSize == size && m.pool.policy == policy
    ensures m.pool.allocSize == 0 && m.pool.numAllocs == 0 && m.pool.numGaps == 1
    ensures |m.nodeHeap| == m.totalNodes == NodeHeapInitCapacity && m.usedNodes == 1
    ensures m.nodeHeap[0].used && !m.nodeHeap[0].isAllocated
    ensures m.nodeHeap[0].mem == Some(0) && m.nodeHeap[0].size == size
    ensures m.nodeHeap[0].next.None? && m.nodeHeap[0].prev.None?
    ensures forall i :: 1 <= i < |m.nodeHeap| ==> m.nodeHeap[i] == ZeroNode
    ensures |m.gapIx| == m.gapIxCapacity == GapIxInitCapacity
    ensures m.gapIx[0] == Gap(size, Some(0))
    ensures forall i :: 1 <= i < |m.gapIx| ==> m.gapIx[i] == ZeroGap
  {
    Mgr(Pool(size, 0, 0, 1, policy),
        seq(NodeHeapInitCapacity, i => if i == 0 then Node(Some(0), size, true, false, None, None) else ZeroNode),
        NodeHeapInitCapacity, 1,
        seq(GapIxInitCapacity, i => if i == 0 then Gap(size, Some(0)) else ZeroGap),
        GapIxInitCapacity)
  }

  /** The condition mem_pool_close checks before tearing a pool down:
      exactly one gap and no outstanding allocation. */
  predicate Releasable(m: Mgr) {
    m.pool.numGaps == 1 && m.pool.numAllocs == 0
  }

  /** A manager in the state open leaves it in, whatever its size and policy. */
  predicate Pristine(m: Mgr) {
    m == NewMgr(m.pool.totalSize, m.pool.policy)
  }

  /** Every freshly opened pool can be closed again. */
  lemma PristineIsReleasable(m: Mgr)
    requires Pristine(m)
    ensures Releasable(m)
    ensures m.pool.allocSize == 0 && m.usedNodes == 1
  {
    var n := NewMgr(m.pool.totalSize, m.pool.policy);
    assert n.pool.numGaps == 1;
  }
}

=== FILE: pool_store.dfy ===
/**
  The process-wide pool store and the user-facing lifecycle operations of
  mem_pool.c: mem_init, mem_free, mem_pool_open, mem_pool_close, and the
  allocation entry points mem_new_alloc and mem_del_alloc, which the source
  leaves as stubs.

  Every operation is a pure transition from one `State` to the next. Pool
  managers live in `pools`, keyed by the address of their record; a pool
  handle is that address.
*/
module PoolStore {
  import opened Wrappers
  import opened Status
  import opened Resources
  import opened PoolMgr

  /** The address of a pool manager record, which is also the pool's handle. */
  type PoolId = nat

  /** Slots the store array is created with. */
  const PoolStoreInitCapacity: nat := 20

  /** The store array (its length is the store's capacity) and the count of
      slots ever filled. */
  datatype StoreArray = StoreArray(slots: seq<Option<PoolId>>, size: nat)

  /** The store never counts more slots than it has. */
  type Store = s: StoreArray | s.size <= |s.slots| witness StoreArray([], 0)

  /** `store` is None while the store pointer is NULL; `pools` holds the live
      manager records. */
  datatype State = State(store: Option<Store>, pools: map<PoolId, Mgr>)

  /** The state of a process before mem_init: NULL store, no pools. */
  const Initial := State(None, map[])

  /** The store's size counter; zero while the store is NULL. */
  function Size(st: State): nat {
    if st.store.None? then 0 else st.store.value.size
  }

  /** The store's capacity counter; zero while the store is NULL. */
  function Capacity(st: State): nat {
    if st.store.None? then 0 else |st.store.value.slots|
  }

  /** Ids held by the counted slots of the store. */
  function LiveIds(s: Store): set<PoolId> {
    set i | 0 <= i < s.size && s.slots[i].Some? :: s.slots[i].value
  }

  datatype Outcome = Outcome(status: AllocStatus, state: State)

  datatype OpenResult = OpenResult(handle: Option<PoolId>, state: State, trace: seq<Event>)

  datatype CloseResult = CloseResult(status: AllocStatus, state: State, trace: seq<Event>)

  /** `alloc` is the address handed out, None for NULL. */
  datatype AllocResult = AllocResult(alloc: Option<nat>, state: State)

  /** Creates the store unless it already exists. The store array's own
      allocation is taken to succeed. */
  function Init(st: State): (r: Outcome)
    ensures st.store.Some? ==> r == Outcome(AllocCalledAgain, st)
    ensures st.store.None? ==>
      && r.status == AllocOk
      && r.state.store.Some?
      && Size(r.state) == 0
      && Capacity(r.state) == PoolStoreInitCapacity
      && (forall i :: 0 <= i < Capacity(r.state) ==> r.state.store.value.slots[i].None?)
      && r.state.pools == st.pools
  {
    if st.store.Some? then Outcome(AllocCalledAgain, st)
    else Outcome(AllocOk, st.(store := Some(StoreArray(seq(PoolStoreInitCapacity, _ => None), 0))))
  }

  /** Destroys the store, provided none of its counted slots still names a pool. */
  function Free(st: State): (r: Outcome)
    ensures st.store.None? ==> r == Outcome(AllocCalledAgain, st)
    ensures st.store.Some? && LiveIds(st.store.value) != {} ==> r == Outcome(AllocNotFreed, st)
    ensures st.store.Some? && LiveIds(st.store.value) == {} ==>
      && r.status == AllocOk
      && r.state.store.None? && Size(r.state) == 0 && Capacity(r.state) == 0
      && r.state.pools == st.pools
  {
    if st.store.None? then Outcome(AllocCalledAgain, st)
    else
      var s := st.store.value;
      if exists i | 0 <= i < s.size :: s.slots[i].Some? then
        var i :| 0 <= i < s.size && s.slots[i].Some?;
        assert s.slots[i].value in LiveIds(s);
        Outcome(AllocNotFreed, st)
      else
        assert LiveIds(s) == {};
        Outcome(AllocOk, st.(store := None))
  }

  /** The allocator's answers to the four requests of an open: the manager
      record's address (None for NULL), then whether the buffer, the node
      heap and the gap index were obtained. */
  datatype Grants = Grants(mgr: Option<PoolId>, buffer: bool, nodeHeap: bool, gapIx: bool) {
    function AsSeq(): (g: seq<bool>)
      ensures |g| == |OpenOrder|
      ensures AllGranted(g) <==> mgr.Some? && buffer && nodeHeap && gapIx
    {
      var g := [mgr.Some?, buffer, nodeHeap, gapIx];
      assert g[0] == mgr.Some? && g[1] == buffer && g[2] == nodeHeap && g[3] == gapIx;
      g
    }
  }

  /** The order in which open requests its blocks. */
  const OpenOrder: seq<Resource> := [MgrRecord, PoolBuffer, NodeHeap, GapIndex]

  /** The order in which close frees them. */
  const CloseOrder: seq<Resource> := [PoolBuffer, NodeHeap, GapIndex, MgrRecord]

  /** The trace of a successful close. */
  function CloseTrace(): (t: seq<Event>)
    ensures |t| == |CloseOrder| && forall i :: 0 <= i < |t| ==> t[i] == Release(CloseOrder[i])
  {
    [Release(PoolBuffer), Release(NodeHeap), Release(GapIndex), Release(MgrRecord)]
  }

  /**
    Opens a pool of `size` bytes. It gives up (NULL handle, state unchanged)
    when the store does not exist or the allocator refuses a request; on
    success it appends the new manager to the store. The source never checks
    the store for room, so a caller that would make it write past the end
    is outside the model.
  */
  function Open(st: State, size: nat, policy: Policy, grants: Grants): (r: OpenResult)
    requires grants.mgr.Some? ==> grants.mgr.value !in st.pools
    requires st.store.Some? && AllGranted(grants.AsSeq()) ==> Size(st) < Capacity(st)
    ensures st.store.None? ==> r.handle.None? && r.state == st && r.trace == []
    ensures st.store.Some? && !AllGranted(grants.AsSeq()) ==>
      r.handle.None? && r.state == st && r.trace == AcquireInOrder(OpenOrder, grants.AsSeq())
    ensures st.store.Some? && AllGranted(grants.AsSeq()) ==>
      && r.handle == grants.mgr
      && var id := grants.mgr.value;
      && r.state.pools == st.pools[id := NewMgr(size, policy)]
      && r.state.store.Some?
      && Size(r.state) == Size(st) + 1
      && Capacity(r.state) == Capacity(st)
      && r.state.store.value.slots[Size(st)] == Some(id)
      && (forall i :: 0 <= i < Capacity(st) && i != Size(st) ==>
            r.state.store.value.slots[i] == st.store.value.slots[i])
      && |r.trace| == |OpenOrder|
      && (forall i :: 0 <= i < |OpenOrder| ==> r.trace[i] == Acquire(OpenOrder[i]))
  {
    if st.store.None? then OpenResult(None, st, [])
    else
      var trace := AcquireInOrder(OpenOrder, grants.AsSeq());
      if !AllGranted(grants.AsSeq()) then OpenResult(None, st, trace)
      else
        var s := st.store.value;
        var id := grants.mgr.value;
        var s' := StoreArray(s.slots[s.size := Some(id)], s.size + 1);
        OpenResult(Some(id), State(Some(s'), st.pools[id := NewMgr(size, policy)]), trace)
  }

  /** True iff slot `i` is the first counted slot of `s` holding `id`. */
  predicate FirstSlotOf(s: Store, id: PoolId, i: nat) {
    && i < s.size
    && s.slots[i] == Some(id)
    && forall j :: 0 <= j < i ==> s.slots[j] != Some(id)
  }

  /** Linear search of the counted slots, from `from` on, for `id`. */
  function FindSlot(s: Store, id: PoolId, from: nat): (r: Option<nat>)
    requires from <= s.size
    requires forall j :: 0 <= j < from ==> s.slots[j] != Some(id)
    ensures r.Some? ==> FirstSlotOf(s, id, r.value)
    ensures r.None? ==> forall j :: 0 <= j < s.size ==> s.slots[j] != Some(id)
    decreases s.size - from
  {
    if from == s.size then None
    else if s.slots[from] == Some(id) then Some(from)
    else FindSlot(s, id, from + 1)
  }

  /** `s` with the first counted slot naming `id`, if any, cleared. */
  function ClearFirst(s: Store, id: PoolId): (s': Store)
    ensures s'.size == s.size && |s'.slots| == |s.slots|
    ensures forall i :: 0 <= i < |s.slots| ==>
      s'.slots[i] == if FirstSlotOf(s, id, i) then None else s.slots[i]
  {
    match FindSlot(s, id, 0)
    case None => s
    case Some(i) => StoreArray(s.slots[i := None], s.size)
  }

  /**
    Closes a pool. A NULL handle, or a pool that does not have exactly one
    gap and no allocations, is refused with nothing changed. Otherwise the
    pool's blocks are freed, the first store slot naming it is cleared, and
    the store's size is left as it was. A non-NULL handle must name a live
    pool: the source dereferences it unchecked.
  */
  function Close(st: State, handle: Option<PoolId>): (r: CloseResult)
    requires handle.Some? ==> handle.value in st.pools
    ensures handle.None? ==> r == CloseResult(AllocNotFreed, st, [])
    ensures handle.Some? && !Releasable(st.pools[handle.value]) ==> r == CloseResult(AllocNotFreed, st, [])
    ensures handle.Some? && Releasable(st.pools[handle.value]) ==>
      && r.status == AllocOk
      && r.trace == CloseTrace()
      && r.state.pools == st.pools - {handle.value}
      && r.state.store.Some? == st.store.Some?
      && Size(r.state) == Size(st)
      && Capacity(r.state) == Capacity(st)
      && (st.store.Some? ==> forall i :: 0 <= i < Capacity(st) ==>
            r.state.store.value.slots[i] ==
              if FirstSlotOf(st.store.value, handle.value, i) then None else st.store.value.slots[i])
  {
    if handle.None? then CloseResult(AllocNotFreed, st, [])
    else
      var id := handle.value;
      var m := st.pools[id];
      if m.pool.numGaps != 1 then CloseResult(AllocNotFreed, st, [])
      else if m.pool.numAllocs != 0 then CloseResult(AllocNotFreed, st, [])
      else
        var store' := if st.store.None? then None else Some(ClearFirst(st.store.value, id));
        CloseResult(AllocOk, State(store', st.pools - {id}), CloseTrace())
  }

  /** mem_new_alloc: a stub that hands out nothing and touches nothing. */
  function NewAlloc(st: State, handle: Option<PoolId>, size: nat): (r: AllocResult)
    ensures r.alloc.None? && r.state == st
  {
    AllocResult(None, st)
  }

  /** mem_del_alloc: a stub that always fails and touches nothing. */
  function DelAlloc(st: State, handle: Option<PoolId>, alloc: Option<nat>): (r: Outcome)
    ensures r.status == AllocFail && r.state == st
  {
    Outcome(AllocFail, st)
  }

  /** A fully granted open acquires the four blocks in the source's order. */
  lemma GrantedOpenTrace()
    ensures AcquireInOrder(OpenOrder, [true, true, true, true])
         == [Acquire(MgrRecord), Acquire(PoolBuffer), Acquire(NodeHeap), Acquire(GapIndex)]
  {
    assert AllGranted([true, true, true, true]);
  }

  /** A fully granted open obtains each of the four blocks once and frees none. */
  lemma GrantedOpenCounts()
    ensures var t := [Acquire(MgrRecord), Acquire(PoolBuffer), Acquire(NodeHeap), Acquire(GapIndex)];
      Acquired(t) == multiset{MgrRecord, PoolBuffer, NodeHeap, GapIndex} && Released(t) == multiset{}
  {
  }

  /** A successful close frees each of the four blocks once and obtains none. */
  lemma CloseCounts()
    ensures Released(CloseTrace()) == multiset{MgrRecord, PoolBuffer, NodeHeap, GapIndex}
    ensures Acquired(CloseTrace()) == multiset{}
  {
  }

  /** The blocks open obtains are exactly the blocks close frees, each once. */
  lemma OpenCloseTracesBalance()
    ensures var t := AcquireInOrder(OpenOrder, [true, true, true, true]);
      && HeldAfter({}, t + CloseTrace()) == {}
      && Acquired(t) == multiset{MgrRecord, PoolBuffer, NodeHeap, GapIndex} == Released(CloseTrace())
      && Released(t) == multiset{} == Acquired(CloseTrace())
  {
    GrantedOpenTrace();
    GrantedOpenCounts();
    CloseCounts();
    var t := [Acquire(MgrRecord), Acquire(PoolBuffer), Acquire(NodeHeap), Acquire(GapIndex)];
    HeldAfterAppend({}, t, CloseTrace());
  }
}

=== FILE: resources.dfy ===
/**
  The heap blocks a pool is built from, and the order in which they are
  obtained from and returned to the C allocator.

  A trace is the sequence of successful acquisitions and of releases an
  operation performs. An acquisition that the allocator refuses leaves no
  event: it is the point where the operation gives up.
*/
module Resources {

  /** The four blocks mem_pool_open asks for: the manager record, the pool's
      byte buffer, the node heap and the gap index. */
  datatype Resource = MgrRecord | PoolBuffer | NodeHeap | GapIndex

  datatype Event = Acquire(res: Resource) | Release(res: Resource)

  /** True iff no resource occurs twice in `rs`. */
  predicate Distinct(rs: seq<Resource>) {
    forall i, j :: 0 <= i < j < |rs| ==> rs[i] != rs[j]
  }

  /** Index of the first refused request, or `|grants|` when all are granted. */
  function FirstDenied(grants: seq<bool>): (k: nat)
    ensures k <= |grants|
    ensures forall i :: 0 <= i < k ==> grants[i]
    ensures k < |grants| ==> !grants[k]
  {
    if |grants| == 0 || !grants[0] then 0 else 1 + FirstDenied(grants[1..])
  }

  /** True iff every request is granted. */
  predicate AllGranted(grants: seq<bool>) {
    FirstDenied(grants) == |grants|
  }

  /**
    Ask for `rs` in order, `grants[i]` being the allocator's answer to the
    i-th request. The first refusal stops the sequence, and every resource
    obtained before it is given back, most recent first.
  */
  function AcquireInOrder(rs: seq<Resource>, grants: seq<bool>): (t: seq<Event>)
    requires |grants| == |rs|
    ensures AllGranted(grants) ==>
      |t| == |rs| && forall i :: 0 <= i < |rs| ==> t[i] == Acquire(rs[i])
    ensures !AllGranted(grants) ==>
      var k := FirstDenied(grants);
      && |t| == 2 * k
      && (forall i :: 0 <= i < k ==> t[i] == Acquire(rs[i]))
      && (forall i :: 0 <= i < k ==> t[2 * k - 1 - i] == Release(rs[i]))
  {
    if |rs| == 0 || !grants[0] then []
    else
      var rest := AcquireInOrder(rs[1..], grants[1..]);
      var k := FirstDenied(grants[1..]);
      assert FirstDenied(grants) == k + 1;
      if AllGranted(grants[1..]) then
        var t := [Acquire(rs[0])] + rest;
        assert forall i :: 1 <= i < |rs| ==> t[i] == rest[i - 1] && rs[1..][i - 1] == rs[i];
        t
      else
        var t := [Acquire(rs[0])] + rest + [Release(rs[0])];
        assert t == Bracket(rs[0], rest);
        BracketIndices(rs, rest, k, FirstDenied(grants));
        t
  }

  /** `rest` between the acquisition and the release of `r`. */
  function Bracket(r: Resource, rest: seq<Event>): seq<Event> {
    [Acquire(r)] + rest + [Release(r)]
  }

  /** Bracketing a mirrored trace of `rs[1..]` with `rs[0]` gives a mirrored trace of `rs`. */
  lemma BracketIndices(rs: seq<Resource>, rest: seq<Event>, k: nat, k': nat)
    requires 0 < |rs| && k < |rs| && k' == k + 1
    requires |rest| == 2 * k
    requires forall i :: 0 <= i < k ==> rest[i] == Acquire(rs[1..][i])
    requires forall i :: 0 <= i < k ==> rest[2 * k - 1 - i] == Release(rs[1..][i])
    ensures var t := Bracket(rs[0], rest);
      && |t| == 2 * k'
      && (forall i :: 0 <= i < k' ==> t[i] == Acquire(rs[i]))
      && (forall i :: 0 <= i < k' ==> t[2 * k' - 1 - i] == Release(rs[i]))
  {
    var t := Bracket(rs[0], rest);
    forall i | 1 <= i < k'
      ensures t[i] == Acquire(rs[i]) && t[2 * k' - 1 - i] == Release(rs[i])
    {
      assert t[i] == rest[i - 1];
      assert t[2 * k' - 1 - i] == rest[2 * k - 1 - (i - 1)];
      assert rs[1..][i - 1] == rs[i];
    }
  }

  /** The resources still held after replaying `t` from the held set `h`. */
  function HeldAfter(h: set<Resource>, t: seq<Event>): set<Resource>
    decreases |t|
  {
    if |t| == 0 then h
    else
      var h' := match t[0]
        case Acquire(r) => h + {r}
        case Release(r) => h - {r};
      HeldAfter(h', t[1..])
  }

  /** The resources a trace acquires, each counted as often as it is acquired. */
  function Acquired(t: seq<Event>): multiset<Resource>
    decreases |t|
  {
    if |t| == 0 then multiset{}
    else (if t[0].Acquire? then multiset{t[0].res} else multiset{}) + Acquired(t[1..])
  }

  /** The resources a trace releases, each counted as often as it is released. */
  function Released(t: seq<Event>): multiset<Resource>
    decreases |t|
  {
    if |t| == 0 then multiset{}
    else (if t[0].Release? then multiset{t[0].res} else multiset{}) + Released(t[1..])
  }

  /** Replaying two traces one after the other is replaying their concatenation. */
  lemma {:induction false} HeldAfterAppend(h: set<Resource>, a: seq<Event>, b: seq<Event>)
    ensures HeldAfter(h, a + b) == HeldAfter(HeldAfter(h, a), b)
    decreases |a|
  {
    if |a| == 0 {
      assert a + b == b;
    } else {
      assert (a + b)[0] == a[0];
      assert (a + b)[1..] == a[1..] + b;
      var h' := match a[0]
        case Acquire(r) => h + {r}
        case Release(r) => h - {r};
      HeldAfterAppend(h', a[1..], b);
    }
  }

  /** The resources listed in `rs`. */
  function Elems(rs: seq<Resource>): set<Resource> {
    set r | r in rs
  }

  lemma ElemsCons(rs: seq<Resource>)
    requires |rs| > 0
    ensures Elems(rs) == {rs[0]} + Elems(rs[1..])
  {
    assert rs == [rs[0]] + rs[1..];
  }

  /** Releasing a resource just acquired, around a trace that restores the
      held set, restores it too. */
  lemma BracketRestores(h: set<Resource>, r: Resource, rest: seq<Event>)
    requires r !in h
    requires HeldAfter(h + {r}, rest) == h + {r}
    ensures HeldAfter(h, [Acquire(r)] + rest + [Release(r)]) == h
  {
    HeldAfterAppend(h, [Acquire(r)], rest);
    HeldAfterAppend(h, [Acquire(r)] + rest, [Release(r)]);
    assert HeldAfter(h, [Acquire(r)]) == h + {r};
    assert HeldAfter(h + {r}, [Release(r)]) == h + {r} - {r};
  }

  /** Acquiring a resource in front of a trace adds it to what the trace ends with. */
  lemma PrefixAdds(h: set<Resource>, r: Resource, rest: seq<Event>)
    ensures HeldAfter(h, [Acquire(r)] + rest) == HeldAfter(h + {r}, rest)
  {
    HeldAfterAppend(h, [Acquire(r)], rest);
    assert HeldAfter(h, [Acquire(r)]) == h + {r};
  }

  /**
    Acquiring distinct resources in order either ends holding all of them,
    or, after a refusal, holds exactly what it held before: nothing leaks.
  */
  lemma {:induction false} AcquireInOrderHeld(h: set<Resource>, rs: seq<Resource>, grants: seq<bool>)
    requires |grants| == |rs|
    requires Distinct(rs)
    requires forall i :: 0 <= i < |rs| ==> rs[i] !in h
    ensures AllGranted(grants) ==> HeldAfter(h, AcquireInOrder(rs, grants)) == h + Elems(rs)
    ensures !AllGranted(grants) ==> HeldAfter(h, AcquireInOrder(rs, grants)) == h
    decreases |rs|
  {
    if |rs| == 0 {
      assert Elems(rs) == {};
    } else if grants[0] {
      var tail := rs[1..];
      var rest := AcquireInOrder(tail, grants[1..]);
      var h1 := h + {rs[0]};
      forall i | 0 <= i < |tail| ensures tail[i] !in h1 {
        assert tail[i] == rs[i + 1];
      }
      AcquireInOrderHeld(h1, tail, grants[1..]);
      ElemsCons(rs);
      if AllGranted(grants[1..]) {
        assert AcquireInOrder(rs, grants) == [Acquire(rs[0])] + rest;
        PrefixAdds(h, rs[0], rest);
      } else {
        assert AcquireInOrder(rs, grants) == [Acquire(rs[0])] + rest + [Release(rs[0])];
        BracketRestores(h, rs[0], rest);
      }
    }
  }
}

=== FILE: status.dfy ===
/** The status codes and allocation policies the pool API exchanges with its callers. */
module Status {

  /** Result codes returned by the lifecycle operations of mem_pool.c. */
  datatype AllocStatus = AllocOk | AllocFail | AllocCalledAgain | AllocNotFreed

  /** Placement policy a pool is opened with; recorded, never consulted by the implemented code. */
  datatype Policy = FirstFit | BestFit
}

=== FILE: wrappers.dfy ===
/** Optional values: the model's stand-in for C's NULL-able pointers. */
module Wrappers {

  /** `None` plays the role of a NULL pointer, `Some(v)` of a pointer to `v`. */
  datatype Option<+T> = None | Some(value: T)
}
